=== FILE: README.md ===
# AI Research Paper Helper: paper-state cache and RAG query coordinator

This project is a Dafny model of the core of the extension's background worker
(`extension/background.js`). The worker keeps one in-memory `state` record: the
current paper, whether the backend is believed to have indexed it, and the
settings. It mirrors that record into extension storage. It also answers RAG
questions about the paper. The remote backend may restart and silently forget
indexed papers, so `ragQuery` queries once. If the error message contains `404`
and a paper is cached, it re-indexes that paper and, if that succeeds, retries
exactly once.

The model is functional. A `World` holds:

- the `state` record;
- the persisted `Store`;
- a `Link` to the backend, which holds a script of replies still to come and a log of every request sent.

Each handler is a pure function from a world, plus its message data, to a new
world and a response. A backend request takes the next scripted reply. The
reply is an HTTP status with a body, or a network error. `apiRequest`'s logic
turns it into `Ok(data)` or `Err(message)`. Contracts are stated against that
script: reply 0 answers the first request, reply 1 the second, and so on. They
say which requests are sent, in what order, which error surfaces, and exactly
how the cache and the store change.

Modules:

- `Text`: JavaScript `includes`, plus decimal rendering and parsing of numbers (`${status}`).
- `Backend`: wire replies, `apiRequest`'s classification, and the scripted connection.
- `Model`: the data types (paper, state, store, world, response).
- `Cache`: `saveCurrentPaper`, `loadSavedState`, and the shallow settings merge.
- `Coordinator`: `indexPaper` and `ragQuery`.
- `QueryMachine`: `ragQuery` restated as a phase machine, with at most one backend request per phase (start, first query, re-index, retry, answer). It is proved equal to `Coordinator.RagQuery`.
- `Analysis`: the pass-through calls, `analyzePage` and `checkBackendHealth`.
- `Dispatcher`: `handleMessage`.
- `Scenarios`: properties that span several calls or use a particular script.

Behaviour kept as the code has it:

- Repair is triggered by a substring test, not by a status. `Backend.StatusSignalsNotIndexedIff404` shows the test is exact for HTTP error replies: a non-OK status below 1000 triggers repair if and only if it is 404. Two other errors can also trigger repair. One is a network error whose message happens to contain `404`. The other is a 2xx reply whose body fails to parse, when the parser's message contains `404` (`Scenarios.UnparsableBodyCanTriggerRepair`).
- The repair re-indexes whatever paper is cached. It does not compare that paper's url with the resolved paper id, and it retries with the original id (`Scenarios.RepairIgnoresRequestedPaper`). The code does not check that the two match, and the model follows it.
- `analyzePage` always answers `success: true`. The summary and key-point helpers catch their own errors, so a failed analysis shows only as missing `summary` or `keypoints` data (`Scenarios.AnalyzeSucceedsDespiteKeyPointFailure`). The code never fails the whole analysis for it, and the model follows it.
- If the re-index fails, the answer carries the first query's error. The index failure reason is not added to it.
- `UPDATE_SETTINGS` does not catch a failing storage write. The merge is already in memory, the handler's promise rejects, and no response is sent (`NoReply`).
- `checkBackendHealth` never looks at the status. Any reply with a parsable body counts as healthy.

## Model

| member | source | states |
|---|---|---|
| `Text.ContainsIffOccurs` | extension/background.js:228 | the recursive `includes` used for the 404 test holds exactly when the needle occurs at some index of the message |
| `Text.Decimal` | extension/background.js:109 | the status rendering is a non-empty digit string, with a leading zero only for 0 |
| `Text.ParseDecimalInvertsDecimal` | extension/background.js:109 | reading the rendered status back gives the status, so distinct statuses give distinct messages |
| `Backend.Classify` | extension/background.js:98-117 | a reply is Ok exactly for a 2xx status with a parsable body, and then carries that body; a non-OK status gives "API error: <status>" whatever the body; a 2xx reply whose body does not parse gives the parser's own message; a network error keeps its own message |
| `Backend.StatusSignalsNotIndexedIff404` | extension/background.js:108-109 | for every status below 1000, the "API error: <status>" message contains "404" if and only if the status is 404 |
| `Backend.HttpErrorSignalsNotIndexedIff404` | extension/background.js:226-228 | an HTTP error reply is read as "not indexed" by `ragQuery` exactly when its status is 404 |
| `Backend.ApiRequest` | extension/background.js:98-117 | one request adds exactly that request to the log and consumes exactly one scripted reply, leaving the rest of the script as it was, raw replies included; the result is that reply's classification |
| `Model.Request` | extension/background.js:98-117 | a backend request from a handler leaves the in-memory record and the store untouched and uses up exactly one raw reply of the script |
| `Cache.MergeSettings` | extension/background.js:85 | after the merge the keys are the union of the old and patched keys, patched fields take the patch's value, and all other fields keep their old value |
| `Cache.MergeIdempotent` | extension/background.js:85 | applying the same settings patch twice gives the same result as applying it once |
| `Cache.SaveCurrentPaper` | extension/background.js:42-53 | memory always takes the new paper and flag; the store takes them only when it is writable; a failed write leaves the store alone and does not roll memory back |
| `Cache.LoadSavedState` | extension/background.js:26-40 | saved settings are merged over the current ones; a saved paper is restored with its flag (missing or false reads as false); with no saved paper the paper and flag stay; a failing read changes nothing |
| `Cache.MergeOntoDefaultsKeeps` | extension/background.js:29-31 | merging saved settings that hold every default field over the defaults gives exactly the saved settings |
| `Cache.LoadKeepsDefaultFields` | extension/background.js:29-31 | restoring saved state never removes a settings field, so the default fields stay present |
| `Cache.RestartRestoresPaper` | extension/background.js:26-53 | whatever the restarted worker held before, loading from storage restores the paper and flag that `saveCurrentPaper` wrote |
| `Coordinator.ResolvePaperId` | extension/background.js:213-217 | a non-empty explicit id wins; otherwise the cached paper's non-empty url is used; there is no id exactly when both are missing or empty; a resolved id is never empty |
| `Coordinator.EffectiveTopK` | extension/background.js:223 | top_k is never 0: it is the given non-zero value, or 5 |
| `Coordinator.IndexPaper` | extension/background.js:195-209 | sends one index request for the paper's url; the paper becomes current whatever the outcome; the flag is true exactly when the backend accepted; the result is the reply's data or its error; storage is written when writable; exactly one raw reply is used up |
| `Coordinator.RagQuery` | extension/background.js:211-247 | no id: fails with the "No paper URL available" message and sends nothing; at most 2 queries and 1 index request, in the order query, index, query, with the same id and top_k for both queries; re-index happens exactly when the first error contains "404" and a paper is cached; the paper and settings never change; the repair writes the paper and flag to a writable store and leaves an unwritable one as it was; a first success returns its data and changes nothing; a non-repairable error is returned as is; a failed re-index clears the flag and returns the first query's error; a successful re-index sets the flag and the single retry's outcome is final; exactly one raw scripted reply is used up per request sent, the rest left as they were |
| `QueryMachine.Step` | extension/background.js:219-243 | every transition moves strictly forward through the phases, sends at most one request, and keeps within the remaining budget; from the retry phase the next phase is always the answer |
| `QueryMachine.Run` | extension/background.js:219-243 | running the machine from any phase sends no more requests than that phase's budget (3 from the start) |
| `QueryMachine.MachineAgreesWithRagQuery` | extension/background.js:211-247 | for every world and request, the phase machine run from the start gives the same world and response as `RagQuery` |
| `Analysis.PassThrough` | extension/background.js:155-193 | a summary, key-point or equation call sends its one request, changes no state, and answers with the reply's data or its error (never an unanswered message); exactly one raw reply is used up |
| `Analysis.AnalyzePage` | extension/background.js:129-153 | always answers success; the page becomes current; `indexed` is whether the index request succeeded, and it is also the new flag; summary and key points are the replies' data, or missing when those requests failed; exactly index, summary and key-point requests are sent, and exactly three raw scripted replies are used up, the rest left as they were; the store is written as `indexPaper` writes it |
| `Analysis.AnalyzeCachesLikeIndexPaper` | extension/background.js:129-153 | analysing a page leaves the same record and store as indexing it, and the reported `indexed` is the index response's success |
| `Analysis.CheckBackendHealth` | extension/background.js:119-127 | a health check succeeds exactly when the reply is HTTP with a parsable body, whatever its status; otherwise it answers "Backend not available"; state is untouched and exactly one reply is used up |
| `Dispatcher.HandleMessage` | extension/background.js:61-95 | an unknown type fails with "Unknown message type" and changes nothing; GET_STATE returns the record unchanged; UPDATE_SETTINGS merges into memory even when the write fails, and then sends no response; ANALYZE_PAGE, RAG_QUERY, INDEX_PAPER, GET_SUMMARY, EXTRACT_KEYPOINTS, EXPLAIN_EQUATION and CHECK_BACKEND each go to their own helper with the message's data; the last four leave the record and the store unchanged; only the index-bearing handlers touch the paper or its flag; only UPDATE_SETTINGS touches the settings |
| `Dispatcher.HandleKeepsDefaultFields` | extension/background.js:61-95 | no message handler removes a settings field |
| `Dispatcher.ReachableHasDefaultFields` | extension/background.js:61-95 | after any sequence of handled messages, the settings still hold every default field |
| `Dispatcher.HandlePreservesMirror` | extension/background.js:61-95 | while storage stays writable, no handler breaks the mirror: a restart from storage would restore exactly the record in memory |
| `Dispatcher.HandleAllPreservesMirror` | extension/background.js:61-95 | the mirror between storage and the record survives any sequence of handled messages |
| `Scenarios.NotFoundSignalsNotIndexed` | extension/background.js:108-109 | an HTTP 404 reply becomes "API error: 404", which the repair test reads as not indexed |
| `Scenarios.FreshStartHasNoPaper` | extension/background.js:211-217 | a worker that restored no paper answers a query without an id with the "no paper" failure and sends nothing |
| `Scenarios.RestartThenRepair` | extension/background.js:226-239 | after a restart that restores an indexed paper, a 404 on the first query leads to re-indexing the restored paper, and the retry's answer is returned; requests are exactly query, index, query |
| `Scenarios.PersistentMissIsBounded` | extension/background.js:226-242 | when the backend answers every query with 404 but accepts the index request, exactly two queries and one index request are sent; the retry's 404 error is returned and the flag is set |
| `Scenarios.OtherStatusNeverReindexes` | extension/background.js:226-245 | an HTTP error other than 404 is returned unchanged after one request; no index request is sent and no state changes |
| `Scenarios.RepairIgnoresRequestedPaper` | extension/background.js:213-237 | with an explicit id for another paper, the re-index targets the cached paper's url and the retry uses the original id |
| `Scenarios.IndexedPaperQueriesWithoutRepair` | extension/background.js:195-225 | after a successful index, a query the backend answers returns that answer with exactly one request |
| `Scenarios.IndexTwiceIsIndexOnce` | extension/background.js:195-209 | indexing the same paper twice, both accepted, raises no error and leaves the same record and store as indexing it once |
| `Scenarios.AnalyzeSucceedsDespiteKeyPointFailure` | extension/background.js:129-153 | when the key-point request fails, the analysis still succeeds, with the summary, no key points, and indexed true |
| `Scenarios.UpdatedSettingsSurviveRestart` | extension/background.js:84-86 | settings written by UPDATE_SETTINGS are exactly the settings a restarted worker restores |
| `Scenarios.SettingsSurviveRestartAfterAnyHistory` | extension/background.js:26-40 | after a restart and any history of handled messages, settings written by UPDATE_SETTINGS are exactly the settings the next restart restores |
| `Scenarios.RestartRestoresAfterAnyHistory` | extension/background.js:26-53 | a worker that restored readable storage and then handled any history of messages can be restarted: the reload restores exactly its paper, flag and settings |
| `Scenarios.HealthCheckSeesRawReplyAfterSummary` | extension/background.js:119-127 | after GET_SUMMARY uses up its reply, CHECK_BACKEND gets the next reply as sent, so any status with a parsable body reports the backend as up |
| `Scenarios.UnparsableBodyCanTriggerRepair` | extension/background.js:112-115 | a 2xx reply whose body fails to parse with a message containing "404" triggers the re-index like an HTTP 404 |

## Left out

- `fetch`, the API base URL, endpoints, HTTP headers and JSON (de)serialisation are not modelled. A request is a `Call` value that holds the fields of its JSON payload. The reply is the next entry of a script. Response bodies are opaque strings. An exhausted script answers like an unreachable backend (`"Failed to fetch"`).
- The backend has no timeout. The source sets none, so a request that never settles is not modelled.
- `chrome.storage.local` is modelled as a record of the three keys, with one `online` flag. When the flag is false, reads and writes both throw. Partial writes and separate read and write failures are not modelled.
- `chrome.runtime` listeners are not modelled. That covers the `onInstalled` hook and the message channel. The start-up call to `loadSavedState` (line 24) is modelled only as a restart lemma's starting world, `LoadSavedState(InitialState, store)`. `NoReply` stands for a handler whose promise rejects, so `sendResponse` is never called.
- A restart is modelled as the start-up load finishing before any message is handled. The source does not ensure this: line 24 does not await `loadSavedState`, so a message that wakes the worker can run before the storage read resolves. A RAG_QUERY without an id would then see no cached paper and fail with the "no paper" message even though a paper is saved. The restart lemmas (`Scenarios.FreshStartHasNoPaper`, `Scenarios.RestartThenRepair`, `Scenarios.SettingsSurviveRestartAfterAnyHistory`, `Scenarios.RestartRestoresAfterAnyHistory`) all start from a finished load.
- Handlers are modelled running one at a time and atomically. Two messages whose `await`s interleave are not modelled.
- `Promise.all` in `analyzePage` is modelled as the summary request followed by the key-point request. Each catches its own errors, so only the order in which they take scripted replies is fixed.
- `console` logging is not modelled.
- Messages whose `data` is missing or has the wrong shape are not modelled. In the source these make the handlers throw `TypeError`s. A `Message` always carries well-formed data for its type.
- JavaScript truthiness is modelled only for the values these fields take: an empty string id, an empty url and a zero `topK` are falsy. `NaN` and non-string ids are not modelled.
- GET_STATE returns the live `state` object. The model returns a snapshot value, so the aliasing is not modelled.
- `Backend.StatusSignalsNotIndexedIff404`: stated only for statuses below 1000. HTTP statuses are three digits. A larger number such as 1404 would also contain `404`.

=== FILE: analysis.dfy ===
/** The stateless backend calls and the ANALYZE_PAGE workflow built on them. */
module Analysis {
  import opened Backend
  import opened Model
  import opened Coordinator

  /** An EXPLAIN_EQUATION request. */
  datatype Equation = Equation(equation: string, context: string, format: string)

  const BackendUnavailableMessage := "Backend not available"

  /** `getSummary`, `extractKeypoints`, `explainEquation`: one request, its error caught
      and turned into a failure response; nothing but the connection changes. */
  function PassThrough(w: World, c: Call): (r: (World, Response))
    ensures r.0.state == w.state && r.0.store == w.store
    ensures r.0.link.calls == w.link.calls + [c]
    ensures r.1 != NoReply
    ensures r.1.Success? <==> Peek(w.link.replies, 0).Ok?
    ensures r.1.Success? ==> r.1 == Success(Returned(Peek(w.link.replies, 0).data))
    ensures r.1.Failure? ==> r.1.error == Peek(w.link.replies, 0).message
    ensures forall i: nat :: Peek(r.0.link.replies, i) == Peek(w.link.replies, i + 1)
    ensures forall i: nat :: WireAt(r.0.link.replies, i) == WireAt(w.link.replies, i + 1)
  {
    var (w1, o) := Request(w, c);
    match o
    case Ok(d) => (w1, Success(Returned(d)))
    case Err(m) => (w1, Failure(m))
  }

  function SummaryRequest(p: Paper): Call
  {
    SummarizeCall(p.title, p.content, p.abstractText, p.pageType)
  }

  function KeyPointsRequest(p: Paper): Call
  {
    KeyPointsCall(p.title, p.content, p.abstractText)
  }

  function ExplainRequest(e: Equation): Call
  {
    ExplainCall(e.equation, e.context, e.format)
  }

  /** `analyzePage`: the page becomes current, is indexed, then summarised and mined
      for key points. The summary and key-point calls catch their own errors, so the
      overall answer is a success whatever the three requests return; a failed
      analysis shows only as missing data, a failed index as `indexed: false`. */
  function AnalyzePage(w: World, page: Paper): (r: (World, Response))
    ensures r.1.Success? && r.1.data.Analyzed?
    ensures r.0.state == w.state.(currentPaper := Some(page), isIndexed := r.1.data.indexed)
    ensures r.1.data.indexed <==> Peek(w.link.replies, 0).Ok?
    ensures r.1.data.summary == (if Peek(w.link.replies, 1).Ok? then Some(Peek(w.link.replies, 1).data) else None)
    ensures r.1.data.keypoints == (if Peek(w.link.replies, 2).Ok? then Some(Peek(w.link.replies, 2).data) else None)
    ensures r.0.link.calls == w.link.calls + [IndexRequest(page), SummaryRequest(page), KeyPointsRequest(page)]
    ensures w.store.online ==> r.0.store == w.store.(currentPaper := Some(page), isIndexed := Some(r.1.data.indexed))
    ensures !w.store.online ==> r.0.store == w.store
    ensures forall i: nat :: Peek(r.0.link.replies, i) == Peek(w.link.replies, i + 3)
    ensures forall i: nat :: WireAt(r.0.link.replies, i) == WireAt(w.link.replies, i + 3)
  {
    var w0 := w.(state := w.state.(currentPaper := Some(page)));
    var (w1, indexResult) := IndexPaper(w0, page);
    var (w2, summary) := PassThrough(w1, SummaryRequest(page));
    var (w3, keypoints) := PassThrough(w2, KeyPointsRequest(page));
    (w3, Success(Analyzed(DataOf(summary), DataOf(keypoints), indexResult.Success?)))
  }

  /** `checkBackendHealth`: a bare fetch of /health. The status is never inspected, so
      any reply whose body parses is a success; otherwise the fixed unavailability message. */
  function CheckBackendHealth(w: World): (r: (World, Response))
    ensures r.0.state == w.state && r.0.store == w.store
    ensures r.0.link.calls == w.link.calls + [HealthCall]
    ensures forall i: nat :: WireAt(r.0.link.replies, i) == WireAt(w.link.replies, i + 1)
    ensures r.1.Success? <==> WireAt(w.link.replies, 0).Http? && WireAt(w.link.replies, 0).body.Parsed?
    ensures r.1.Success? ==> r.1 == Success(Returned(WireAt(w.link.replies, 0).body.data))
    ensures !r.1.Success? ==> r.1 == Failure(BackendUnavailableMessage)
  {
    var (link, wire) := Fetch(w.link, HealthCall);
    var w1 := w.(link := link);
    if wire.Http? && wire.body.Parsed? then (w1, Success(Returned(wire.body.data)))
    else (w1, Failure(BackendUnavailableMessage))
  }

  /** On the cache and the store, analysing a page does exactly what indexing it does,
      and the reported `indexed` is the index response's success. */
  lemma AnalyzeCachesLikeIndexPaper(w: World, page: Paper)
    ensures AnalyzePage(w, page).0.state == IndexPaper(w, page).0.state
    ensures AnalyzePage(w, page).0.store == IndexPaper(w, page).0.store
    ensures AnalyzePage(w, page).1.data.indexed == IndexPaper(w, page).1.Success?
  {
  }
}

=== FILE: backend.dfy ===
/** The remote research backend, seen from the extension: every request is
    answered by the next reply of a script, and `apiRequest` turns that reply
    into either the decoded body or an error message. */
module Backend {
  import opened Text

  /** A decoded JSON body is kept opaque: the core only passes it along. */
  type Payload = string

  /** What `response.json()` yields: a value, or the parse error it throws. */
  datatype Body = Parsed(data: Payload) | Unparsable(message: string)

  /** One answer from the network: an HTTP response, or the error `fetch` rejects with. */
  datatype Wire = Http(status: nat, body: Body) | NetworkError(message: string)

  /** What `apiRequest` resolves to (Ok) or throws (Err). */
  datatype Outcome = Ok(data: Payload) | Err(message: string)

  /** The requests the extension sends, with the fields of their JSON payloads. */
  datatype Call =
    | IndexCall(title: string, content: string, paperId: string)
    | QueryCall(query: string, paperId: string, topK: int)
    | SummarizeCall(title: string, content: string, abstractText: string, pageType: string)
    | KeyPointsCall(title: string, content: string, abstractText: string)
    | ExplainCall(equation: string, context: string, format: string)
    | HealthCall

  /** The connection: replies still to come, and every request sent so far. */
  datatype Link = Link(replies: seq<Wire>, calls: seq<Call>)

  /** The answer once the script is exhausted: the backend is unreachable. */
  const Unreachable: Wire := NetworkError("Failed to fetch")

  const ApiErrorPrefix := "API error: "

  /** The message `apiRequest` throws for a response whose status is not OK. */
  function StatusMessage(status: nat): string
  {
    ApiErrorPrefix + Decimal(status)
  }

  /** `response.ok`: the status lies in 200..299. */
  predicate IsOkStatus(status: nat)
  {
    200 <= status <= 299
  }

  /** `apiRequest` after the fetch: a non-OK status is an error carrying the status
      number, checked before the body is read; an OK status yields the parsed body, or
      the parse error rethrown with its own message. */
  function Classify(w: Wire): (o: Outcome)
    ensures o.Ok? <==> w.Http? && IsOkStatus(w.status) && w.body.Parsed?
    ensures o.Ok? ==> o.data == w.body.data
    ensures w.Http? && !IsOkStatus(w.status) ==> o == Err(StatusMessage(w.status))
    ensures w.Http? && IsOkStatus(w.status) && w.body.Unparsable? ==> o == Err(w.body.message)
    ensures w.NetworkError? ==> o == Err(w.message)
  {
    match w
    case NetworkError(m) => Err(m)
    case Http(status, body) =>
      if !IsOkStatus(status) then Err(StatusMessage(status))
      else match body
        case Parsed(d) => Ok(d)
        case Unparsable(m) => Err(m)
  }

  /** The test `ragQuery` applies to an error message to decide the paper is not indexed. */
  predicate SignalsNotIndexed(message: string)
  {
    Contains(message, "404")
  }

  /** Over the three-digit range of HTTP status codes (and below), an error status
      is read as "not indexed" exactly when it is 404. */
  lemma StatusSignalsNotIndexedIff404(status: nat)
    requires status < 1000
    ensures SignalsNotIndexed(StatusMessage(status)) <==> status == 404
  {
    var d := Decimal(status);
    assert ApiErrorPrefix == "API error: ";
    forall i | 0 <= i < |ApiErrorPrefix|
      ensures ApiErrorPrefix[i] != '4'
    {
    }
    ContainsAfterPrefix(ApiErrorPrefix, d, "404");
    DecimalBelowThousand(status);
    ContainsNoLonger(d, "404");
    assert Decimal(404) == "404" by {
      assert Decimal(40) == "40";
    }
    DecimalInjective(status, 404);
  }

  /** An HTTP error reply from the backend triggers repair only for status 404. */
  lemma HttpErrorSignalsNotIndexedIff404(w: Wire)
    requires w.Http? && !IsOkStatus(w.status) && w.status < 1000
    ensures Classify(w).Err?
    ensures SignalsNotIndexed(Classify(w).message) <==> w.status == 404
  {
    StatusSignalsNotIndexedIff404(w.status);
  }

  /** The i-th reply still to come, or `Unreachable` past the end of the script. */
  function WireAt(replies: seq<Wire>, i: nat): Wire
  {
    if i < |replies| then replies[i] else Unreachable
  }

  /** How the i-th request from now will be classified. */
  function Peek(replies: seq<Wire>, i: nat): Outcome
  {
    Classify(WireAt(replies, i))
  }

  /** Sends one request and receives the next reply, unclassified (a bare `fetch`). */
  function Fetch(link: Link, c: Call): (r: (Link, Wire))
    ensures r.0.calls == link.calls + [c]
    ensures r.1 == WireAt(link.replies, 0)
    ensures forall i: nat :: WireAt(r.0.replies, i) == WireAt(link.replies, i + 1)
  {
    var rest := if |link.replies| == 0 then [] else link.replies[1..];
    (Link(rest, link.calls + [c]), WireAt(link.replies, 0))
  }

  /** `apiRequest`: one request, one reply consumed, classified. */
  function ApiRequest(link: Link, c: Call): (r: (Link, Outcome))
    ensures r.0.calls == link.calls + [c]
    ensures r.1 == Peek(link.replies, 0)
    ensures forall i: nat :: Peek(r.0.replies, i) == Peek(link.replies, i + 1)
    ensures forall i: nat :: WireAt(r.0.replies, i) == WireAt(link.replies, i + 1)
  {
    var (next, wire) := Fetch(link, c);
    (next, Classify(wire))
  }

  function CountQueries(calls: seq<Call>): (n: nat)
    ensures n <= |calls|
  {
    if |calls| == 0 then 0 else (if calls[0].QueryCall? then 1 else 0) + CountQueries(calls[1..])
  }

  function CountIndexes(calls: seq<Call>): (n: nat)
    ensures n <= |calls|
  {
    if |calls| == 0 then 0 else (if calls[0].IndexCall? then 1 else 0) + CountIndexes(calls[1..])
  }

  /** Request counts of a three-request trace, position by position. */
  lemma CountsOfThree(a: Call, b: Call, c: Call)
    ensures CountQueries([a, b, c]) == (if a.QueryCall? then 1 else 0) + (if b.QueryCall? then 1 else 0) + (if c.QueryCall? then 1 else 0)
    ensures CountIndexes([a, b, c]) == (if a.IndexCall? then 1 else 0) + (if b.IndexCall? then 1 else 0) + (if c.IndexCall? then 1 else 0)
  {
    assert [a, b, c][1..] == [b, c];
    assert [b, c][1..] == [c];
    assert [c][1..] == [];
    assert CountQueries([c]) == (if c.QueryCall? then 1 else 0);
    assert CountQueries([b, c]) == (if b.QueryCall? then 1 else 0) + CountQueries([c]);
    assert CountIndexes([c]) == (if c.IndexCall? then 1 else 0);
    assert CountIndexes([b, c]) == (if b.IndexCall? then 1 else 0) + CountIndexes([c]);
  }
}

=== FILE: cache.dfy ===
/** The paper-state cache: the in-memory record, its shallow settings merge, and
    its best-effort mirror in extension storage. */
module Cache {
  import opened Model

  /** `{...settings, ...patch}` (and `Object.assign(settings, patch)`): patched fields win,
      every other field keeps its value, no field is dropped. */
  function MergeSettings(current: Settings, patch: Settings): (r: Settings)
    ensures r.Keys == current.Keys + patch.Keys
    ensures forall k :: k in patch ==> r[k] == patch[k]
    ensures forall k :: k in current && k !in patch ==> r[k] == current[k]
  {
    current + patch
  }

  /** Applying the same patch twice is applying it once. */
  lemma MergeIdempotent(current: Settings, patch: Settings)
    ensures MergeSettings(MergeSettings(current, patch), patch) == MergeSettings(current, patch)
  {
  }

  /** Merging onto settings that already hold every default field leaves them as they are. */
  lemma MergeOntoDefaultsKeeps(saved: Settings)
    requires DefaultSettings.Keys <= saved.Keys
    ensures MergeSettings(DefaultSettings, saved) == saved
  {
  }

  /** The record still holds every default settings field. Merges only add fields, so
      this holds in every state the worker reaches. */
  predicate HasDefaultFields(s: State)
  {
    DefaultSettings.Keys <= s.settings.Keys
  }

  /** Restoring saved state never removes a settings field. */
  lemma LoadKeepsDefaultFields(s: State, store: Store)
    requires HasDefaultFields(s)
    ensures HasDefaultFields(LoadSavedState(s, store))
    ensures LoadSavedState(s, store).settings.Keys >= s.settings.Keys
  {
  }

  /** `saveCurrentPaper`: memory first, then storage. A failing write is swallowed and
      the in-memory record is not rolled back. */
  function SaveCurrentPaper(w: World, paper: Paper, indexed: bool): (r: World)
    ensures r.state.currentPaper == Some(paper) && r.state.isIndexed == indexed
    ensures r.state.settings == w.state.settings
    ensures r.link == w.link
    ensures w.store.online ==> r.store.currentPaper == Some(paper) && r.store.isIndexed == Some(indexed)
    ensures r.store.settings == w.store.settings && r.store.online == w.store.online
    ensures !w.store.online ==> r.store == w.store
  {
    var inMemory := w.(state := w.state.(currentPaper := Some(paper), isIndexed := indexed));
    if w.store.online then
      inMemory.(store := w.store.(currentPaper := Some(paper), isIndexed := Some(indexed)))
    else
      inMemory
  }

  /** `loadSavedState`: saved settings are merged over the current ones; a saved paper
      brings its indexed flag with it (missing or false reads as false); without a
      saved paper the paper and flag stay; a failing read changes nothing. */
  function LoadSavedState(s: State, store: Store): (r: State)
    ensures !store.online ==> r == s
    ensures store.online && store.settings.Some? ==> r.settings == MergeSettings(s.settings, store.settings.value)
    ensures store.settings.None? ==> r.settings == s.settings
    ensures store.online && store.currentPaper.Some? ==>
              r.currentPaper == store.currentPaper && (r.isIndexed <==> store.isIndexed == Some(true))
    ensures store.currentPaper.None? ==> r.currentPaper == s.currentPaper && r.isIndexed == s.isIndexed
  {
    if !store.online then s
    else
      var settings := if store.settings.Some? then MergeSettings(s.settings, store.settings.value) else s.settings;
      if store.currentPaper.Some? then
        State(store.currentPaper, store.isIndexed == Some(true), settings)
      else
        s.(settings := settings)
  }

  /** Round trip through storage: what `saveCurrentPaper` wrote is what a restarted
      worker restores, whatever it held before. */
  lemma RestartRestoresPaper(w: World, paper: Paper, indexed: bool, prior: State)
    requires w.store.online
    ensures var s := LoadSavedState(prior, SaveCurrentPaper(w, paper, indexed).store);
            s.currentPaper == Some(paper) && s.isIndexed == indexed
  {
  }
}

=== FILE: coordinator.dfy ===
/** The query coordinator: `indexPaper` and `ragQuery`, which queries once and,
    when the backend has evidently forgotten the paper, re-indexes the current
    paper and retries exactly once. */
module Coordinator {
  import opened Backend
  import opened Model
  import opened Cache

  /** The `data` of a RAG_QUERY message; absent fields are `None`. */
  datatype QueryData = QueryData(query: string, paperId: Option<string>, topK: Option<int>)

  const NoPaperMessage := "No paper URL available. Please analyze a page first."

  const DefaultTopK := 5

  /** `data.paperId || state.currentPaper?.url`, with an empty string counted as missing. */
  function ResolvePaperId(q: QueryData, s: State): (id: Option<string>)
    ensures id.Some? ==> id.value != ""
    ensures q.paperId.Some? && q.paperId.value != "" ==> id == q.paperId
    ensures (q.paperId.None? || q.paperId.value == "") && s.currentPaper.Some? && s.currentPaper.value.url != "" ==>
              id == Some(s.currentPaper.value.url)
    ensures id.None? <==> (q.paperId.None? || q.paperId.value == "") && (s.currentPaper.None? || s.currentPaper.value.url == "")
  {
    if q.paperId.Some? && q.paperId.value != "" then q.paperId
    else if s.currentPaper.Some? && s.currentPaper.value.url != "" then Some(s.currentPaper.value.url)
    else None
  }

  /** `data.topK || 5`: zero counts as missing. */
  function EffectiveTopK(q: QueryData): (k: int)
    ensures k != 0
    ensures q.topK.Some? && q.topK.value != 0 ==> k == q.topK.value
    ensures k == DefaultTopK || q.topK == Some(k)
  {
    if q.topK.Some? && q.topK.value != 0 then q.topK.value else DefaultTopK
  }

  /** The request body sent to /rag/index for a paper. */
  function IndexRequest(p: Paper): Call
  {
    IndexCall(p.title, p.content, p.url)
  }

  /** `indexPaper`: one index request; the paper becomes current whatever the outcome,
      and the indexed flag records whether the backend accepted it. */
  function IndexPaper(w: World, paper: Paper): (r: (World, Response))
    ensures r.0.state == w.state.(currentPaper := Some(paper), isIndexed := r.1.Success?)
    ensures r.1.Success? <==> Peek(w.link.replies, 0).Ok?
    ensures r.1.Success? ==> r.1 == Success(Returned(Peek(w.link.replies, 0).data))
    ensures !r.1.Success? ==> r.1 == Failure(Peek(w.link.replies, 0).message)
    ensures r.0.link.calls == w.link.calls + [IndexRequest(paper)]
    ensures forall i: nat :: Peek(r.0.link.replies, i) == Peek(w.link.replies, i + 1)
    ensures forall i: nat :: WireAt(r.0.link.replies, i) == WireAt(w.link.replies, i + 1)
    ensures w.store.online ==> r.0.store == w.store.(currentPaper := Some(paper), isIndexed := Some(r.1.Success?))
    ensures !w.store.online ==> r.0.store == w.store
  {
    var (w1, o) := Request(w, IndexRequest(paper));
    match o
    case Ok(d) => (SaveCurrentPaper(w1, paper, true), Success(Returned(d)))
    case Err(m) => (SaveCurrentPaper(w1, paper, false), Failure(m))
  }

  /** The repair condition: an id was resolved, the first query failed with a message
      containing "404", and a current paper is cached (its url is not compared with the id). */
  predicate RepairTriggered(w: World, q: QueryData)
  {
    && ResolvePaperId(q, w.state).Some?
    && Peek(w.link.replies, 0).Err?
    && SignalsNotIndexed(Peek(w.link.replies, 0).message)
    && w.state.currentPaper.Some?
  }

  /** The requests a handler added to the log. */
  function Sent(before: World, after: World): seq<Call>
    requires before.link.calls <= after.link.calls
  {
    after.link.calls[|before.link.calls|..]
  }

  /** `ragQuery`. Outcomes are stated in terms of the scripted replies: reply 0 answers
      the first query, reply 1 the re-index, reply 2 the retry. */
  function RagQuery(w: World, q: QueryData): (r: (World, Response))
    // No id: fail at once, nothing sent, nothing changed.
    ensures ResolvePaperId(q, w.state).None? ==> r == (w, Failure(NoPaperMessage))
    // Bounded work: at most two queries and one index request, in this shape.
    ensures w.link.calls <= r.0.link.calls
    ensures |Sent(w, r.0)| <= 3
    ensures CountQueries(Sent(w, r.0)) <= 2 && CountIndexes(Sent(w, r.0)) <= 1
    ensures ResolvePaperId(q, w.state).Some? ==>
              |Sent(w, r.0)| >= 1 &&
              Sent(w, r.0)[0] == QueryCall(q.query, ResolvePaperId(q, w.state).value, EffectiveTopK(q))
    ensures |Sent(w, r.0)| >= 2 ==>
              w.state.currentPaper.Some? && Sent(w, r.0)[1] == IndexRequest(w.state.currentPaper.value)
    ensures |Sent(w, r.0)| == 3 ==> Sent(w, r.0)[2] == Sent(w, r.0)[0]
    // Re-indexing happens exactly on the repair condition.
    ensures CountIndexes(Sent(w, r.0)) == 1 <==> RepairTriggered(w, q)
    // The current paper and the settings never change; without repair nothing does.
    ensures r.0.state.currentPaper == w.state.currentPaper && r.0.state.settings == w.state.settings
    ensures !RepairTriggered(w, q) ==> r.0.state == w.state && r.0.store == w.store
    // First query answered: its data, one request.
    ensures ResolvePaperId(q, w.state).Some? && Peek(w.link.replies, 0).Ok? ==>
              r.1 == Success(Returned(Peek(w.link.replies, 0).data)) && |Sent(w, r.0)| == 1
    // First query failed without repair: its own error, one request.
    ensures ResolvePaperId(q, w.state).Some? && Peek(w.link.replies, 0).Err? && !RepairTriggered(w, q) ==>
              r.1 == Failure(Peek(w.link.replies, 0).message) && |Sent(w, r.0)| == 1
    // Re-index failed: flag cleared, original query error surfaced, no retry.
    ensures RepairTriggered(w, q) && Peek(w.link.replies, 1).Err? ==>
              && r.1 == Failure(Peek(w.link.replies, 0).message)
              && !r.0.state.isIndexed
              && |Sent(w, r.0)| == 2
    // Re-index succeeded: flag set, exactly one retry whose outcome is final.
    ensures RepairTriggered(w, q) && Peek(w.link.replies, 1).Ok? ==>
              && r.0.state.isIndexed
              && |Sent(w, r.0)| == 3
              && (Peek(w.link.replies, 2).Ok? ==> r.1 == Success(Returned(Peek(w.link.replies, 2).data)))
              && (Peek(w.link.replies, 2).Err? ==> r.1 == Failure(Peek(w.link.replies, 2).message))
    // The repair persists the re-indexed paper and its flag when storage works.
    ensures RepairTriggered(w, q) && w.store.online ==>
              r.0.store == w.store.(currentPaper := w.state.currentPaper, isIndexed := Some(r.0.state.isIndexed))
    // A failed write during the repair is swallowed: the store stays as it was.
    ensures RepairTriggered(w, q) && !w.store.online ==> r.0.store == w.store
    // One scripted reply per request sent.
    ensures forall i: nat :: Peek(r.0.link.replies, i) == Peek(w.link.replies, i + |Sent(w, r.0)|)
    ensures forall i: nat :: WireAt(r.0.link.replies, i) == WireAt(w.link.replies, i + |Sent(w, r.0)|)
  {
    var id := ResolvePaperId(q, w.state);
    if id.None? then (w, Failure(NoPaperMessage))
    else
      var ask := QueryCall(q.query, id.value, EffectiveTopK(q));
      var (w1, first) := Request(w, ask);
      match first
      case Ok(d) => (w1, Success(Returned(d)))
      case Err(m) =>
        if SignalsNotIndexed(m) && w1.state.currentPaper.Some? then
          var (w2, reindexed) := IndexPaper(w1, w1.state.currentPaper.value);
          if reindexed.Success? then
            var (w3, retry) := Request(w2, ask);
            CountsOfThree(ask, IndexRequest(w.state.currentPaper.value), ask);
            match retry
            case Ok(d) => (w3, Success(Returned(d)))
            case Err(m3) => (w3, Failure(m3))
          else (w2, Failure(m))
        else (w1, Failure(m))
  }
}

=== FILE: dispatcher.dfy ===
/** `handleMessage`: routes a decoded message to its handler. */
module Dispatcher {
  import opened Model
  import opened Cache
  import Coordinator
  import Analysis

  /** A message from the popup or content script, by its `type` field. `Unrecognised`
      carries any type string other than the nine handled ones. */
  datatype Message =
    | AnalyzePage(page: Paper)
    | GetSummary(page: Paper)
    | ExplainEquation(equation: Analysis.Equation)
    | ExtractKeypoints(page: Paper)
    | RagQuery(query: Coordinator.QueryData)
    | IndexPaper(page: Paper)
    | GetState
    | UpdateSettings(patch: Settings)
    | CheckBackend
    | Unrecognised(kind: string)

  const UnknownTypeMessage := "Unknown message type"

  function HandleMessage(w: World, m: Message): (r: (World, Response))
    // An unknown type changes nothing and sends nothing.
    ensures m.Unrecognised? ==> r == (w, Failure(UnknownTypeMessage))
    // GET_STATE hands back the in-memory record as it is.
    ensures m.GetState? ==> r == (w, Success(Snapshot(w.state)))
    // UPDATE_SETTINGS: the merge lands in memory even when the write throws; then no
    // response is sent at all.
    ensures m.UpdateSettings? ==>
              && r.0.state == w.state.(settings := MergeSettings(w.state.settings, m.patch))
              && r.0.link == w.link
              && (w.store.online ==> r.1 == Success(NoData) && r.0.store == w.store.(settings := Some(r.0.state.settings)))
              && (!w.store.online ==> r.1 == NoReply && r.0.store == w.store)
    // Only the workflows that index can change the cached paper or its flag.
    ensures !(m.AnalyzePage? || m.IndexPaper? || m.RagQuery?) ==>
              r.0.state.currentPaper == w.state.currentPaper && r.0.state.isIndexed == w.state.isIndexed
    // Only UPDATE_SETTINGS changes the settings.
    ensures !m.UpdateSettings? ==> r.0.state.settings == w.state.settings
    // Every handler but UPDATE_SETTINGS answers.
    ensures r.1 == NoReply ==> m.UpdateSettings? && !w.store.online
    ensures m.AnalyzePage? ==> r == Analysis.AnalyzePage(w, m.page)
    ensures m.RagQuery? ==> r == Coordinator.RagQuery(w, m.query)
    ensures m.IndexPaper? ==> r == Coordinator.IndexPaper(w, m.page)
    // The three pass-through calls and the health check go to their own helper, which
    // never touches storage.
    ensures m.GetSummary? ==> r == Analysis.PassThrough(w, Analysis.SummaryRequest(m.page))
    ensures m.ExtractKeypoints? ==> r == Analysis.PassThrough(w, Analysis.KeyPointsRequest(m.page))
    ensures m.ExplainEquation? ==> r == Analysis.PassThrough(w, Analysis.ExplainRequest(m.equation))
    ensures m.CheckBackend? ==> r == Analysis.CheckBackendHealth(w)
    ensures (m.GetSummary? || m.ExtractKeypoints? || m.ExplainEquation? || m.CheckBackend?) ==>
              r.0.state == w.state && r.0.store == w.store
  {
    match m
    case AnalyzePage(page) => Analysis.AnalyzePage(w, page)
    case GetSummary(page) => Analysis.PassThrough(w, Analysis.SummaryRequest(page))
    case ExplainEquation(e) => Analysis.PassThrough(w, Analysis.ExplainRequest(e))
    case ExtractKeypoints(page) => Analysis.PassThrough(w, Analysis.KeyPointsRequest(page))
    case RagQuery(q) => Coordinator.RagQuery(w, q)
    case IndexPaper(page) => Coordinator.IndexPaper(w, page)
    case GetState => (w, Success(Snapshot(w.state)))
    case UpdateSettings(patch) =>
      var merged := w.(state := w.state.(settings := MergeSettings(w.state.settings, patch)));
      if w.store.online then (merged.(store := w.store.(settings := Some(merged.state.settings))), Success(NoData))
      else (merged, NoReply)
    case CheckBackend => Analysis.CheckBackendHealth(w)
    case Unrecognised(_) => (w, Failure(UnknownTypeMessage))
  }

  /** The world after handling a sequence of messages one at a time. */
  function HandleAll(w: World, messages: seq<Message>): World
    decreases |messages|
  {
    if |messages| == 0 then w else HandleAll(HandleMessage(w, messages[0]).0, messages[1..])
  }

  /** No handler removes a settings field. */
  lemma HandleKeepsDefaultFields(w: World, m: Message)
    requires HasDefaultFields(w.state)
    ensures HasDefaultFields(HandleMessage(w, m).0.state)
  {
  }

  /** Every state reached from the initial record by handling messages keeps the
      default settings fields. */
  lemma {:induction false} ReachableHasDefaultFields(w: World, messages: seq<Message>)
    requires HasDefaultFields(w.state)
    ensures HasDefaultFields(HandleAll(w, messages).state)
    decreases |messages|
  {
    if |messages| > 0 {
      HandleKeepsDefaultFields(w, messages[0]);
      ReachableHasDefaultFields(HandleMessage(w, messages[0]).0, messages[1..]);
    }
  }

  /** Storage mirrors the record: it is readable, and a worker restarted from it would
      restore exactly the record now in memory. */
  predicate Mirrors(w: World)
  {
    w.store.online && LoadSavedState(InitialState, w.store) == w.state
  }

  /** Every handler keeps storage a mirror of the record while storage stays writable. */
  lemma HandlePreservesMirror(w: World, m: Message)
    requires Mirrors(w)
    ensures Mirrors(HandleMessage(w, m).0)
  {
  }

  /** After any sequence of handled messages, storage still mirrors the record. */
  lemma {:induction false} HandleAllPreservesMirror(w: World, messages: seq<Message>)
    requires Mirrors(w)
    ensures Mirrors(HandleAll(w, messages))
    decreases |messages|
  {
    if |messages| > 0 {
      HandlePreservesMirror(w, messages[0]);
      HandleAllPreservesMirror(HandleMessage(w, messages[0]).0, messages[1..]);
    }
  }
}

=== FILE: model.dfy ===
/** The extension's data: the paper being read, the in-memory `state` record of
    the background worker, the persisted copy of it, and the responses sent back
    to the popup and content script. */
module Model {
  import opened Backend

  datatype Option<+T> = None | Some(value: T)

  /** A settings entry: the defaults are strings and a flag; a patch may bring any JSON scalar. */
  datatype Value = Str(text: string) | Flag(flag: bool) | Number(number: int)

  /** A settings object, field name to value. */
  type Settings = map<string, Value>

  /** A captured page. An empty `url` stands for a missing or empty one (both falsy). */
  datatype Paper = Paper(url: string, title: string, abstractText: string, content: string, pageType: string)

  /** The worker's `state` record. */
  datatype State = State(currentPaper: Option<Paper>, isIndexed: bool, settings: Settings)

  /** `chrome.storage.local` restricted to the three keys the worker uses. When it is
      not `online`, every get and set on it throws. */
  datatype Store = Store(online: bool, settings: Option<Settings>, currentPaper: Option<Paper>, isIndexed: Option<bool>)

  /** Everything one message handler can observe or change. */
  datatype World = World(state: State, store: Store, link: Link)

  /** The `data` field of a successful response. */
  datatype Data =
    | NoData
    | Returned(payload: Payload)
    | Snapshot(snapshot: State)
    | Analyzed(summary: Option<Payload>, keypoints: Option<Payload>, indexed: bool)

  /** `{success: true, data}`, `{success: false, error}`, or no response at all (the
      handler's promise rejected, so `sendResponse` is never called). */
  datatype Response = Success(data: Data) | Failure(error: string) | NoReply

  const DefaultSettings: Settings := map["apiMode" := Str("hybrid"), "summaryLevel" := Str("all"), "autoAnalyze" := Flag(false)]

  /** The record as the worker script starts, before anything is restored. */
  const InitialState: State := State(None, false, DefaultSettings)

  /** `apiRequest` issued from a handler: only the connection changes. */
  function Request(w: World, c: Call): (r: (World, Outcome))
    ensures r.0.state == w.state && r.0.store == w.store
    ensures r.0.link.calls == w.link.calls + [c]
    ensures r.1 == Peek(w.link.replies, 0)
    ensures forall i: nat :: Peek(r.0.link.replies, i) == Peek(w.link.replies, i + 1)
    ensures forall i: nat :: WireAt(r.0.link.replies, i) == WireAt(w.link.replies, i + 1)
  {
    var (link, o) := ApiRequest(w.link, c);
    (w.(link := link), o)
  }

  /** The `data` of a pass-through response, as read by `summary.data`: absent on failure. */
  function DataOf(r: Response): Option<Payload>
  {
    if r.Success? && r.data.Returned? then Some(r.data.payload) else None
  }
}

=== FILE: query_machine.dfy ===
/** `ragQuery` restated as a phase machine, at most one backend request per phase:
    start, first query, re-index, retry, then a final answer. It is an independent
    statement of the coordinator: the lemma at the end shows that running it from
    `Start` is exactly `Coordinator.RagQuery`. */
module QueryMachine {
  import opened Backend
  import opened Model
  import opened Coordinator

  datatype Phase =
    | Start
    | Querying(paperId: string, topK: int)
    | Reindexing(paperId: string, topK: int, cause: string)
    | RetryQuerying(paperId: string, topK: int)
    | Done(answer: Response)

  /** Position in the fixed order of phases; every step moves strictly forward. */
  function Rank(ph: Phase): nat
  {
    match ph
    case Start => 4
    case Querying(_, _) => 3
    case Reindexing(_, _, _) => 2
    case RetryQuerying(_, _) => 1
    case Done(_) => 0
  }

  /** The most backend requests still to come from a phase. */
  function Budget(ph: Phase): nat
  {
    match ph
    case Start => 3
    case Querying(_, _) => 3
    case Reindexing(_, _, _) => 2
    case RetryQuerying(_, _) => 1
    case Done(_) => 0
  }

  /** One transition. The repair reads the cached paper at the moment it starts. */
  function Step(w: World, q: QueryData, ph: Phase): (r: (World, Phase))
    requires !ph.Done?
    ensures Rank(r.1) < Rank(ph)
    ensures w.link.calls <= r.0.link.calls
    ensures |r.0.link.calls| <= |w.link.calls| + 1
    ensures |r.0.link.calls| - |w.link.calls| + Budget(r.1) <= Budget(ph)
    ensures ph.RetryQuerying? ==> r.1.Done?
    ensures r.1.Reindexing? ==> r.0.state.currentPaper.Some?
  {
    match ph
    case Start =>
      var id := ResolvePaperId(q, w.state);
      if id.None? then (w, Done(Failure(NoPaperMessage))) else (w, Querying(id.value, EffectiveTopK(q)))
    case Querying(id, k) =>
      var (w1, o) := Request(w, QueryCall(q.query, id, k));
      if o.Ok? then (w1, Done(Success(Returned(o.data))))
      else if SignalsNotIndexed(o.message) && w1.state.currentPaper.Some? then (w1, Reindexing(id, k, o.message))
      else (w1, Done(Failure(o.message)))
    case Reindexing(id, k, cause) =>
      if w.state.currentPaper.None? then (w, Done(Failure(cause)))
      else
        var (w1, indexed) := IndexPaper(w, w.state.currentPaper.value);
        if indexed.Success? then (w1, RetryQuerying(id, k)) else (w1, Done(Failure(cause)))
    case RetryQuerying(id, k) =>
      var (w1, o) := Request(w, QueryCall(q.query, id, k));
      (w1, Done(if o.Ok? then Success(Returned(o.data)) else Failure(o.message)))
  }

  /** Steps until an answer; the requests sent never exceed the starting phase's budget. */
  function Run(w: World, q: QueryData, ph: Phase): (r: (World, Response))
    ensures w.link.calls <= r.0.link.calls
    ensures |r.0.link.calls| <= |w.link.calls| + Budget(ph)
    decreases Rank(ph)
  {
    if ph.Done? then (w, ph.answer)
    else
      var (w1, next) := Step(w, q, ph);
      Run(w1, q, next)
  }

  /** The machine and the direct-style coordinator agree on every world and request. */
  lemma {:induction false} MachineAgreesWithRagQuery(w: World, q: QueryData)
    ensures Run(w, q, Start) == RagQuery(w, q)
  {
    var id := ResolvePaperId(q, w.state);
    var (w0, ph0) := Step(w, q, Start);
    assert Run(w, q, Start) == Run(w0, q, ph0);
    if id.Some? {
      var (w1, ph1) := Step(w0, q, ph0);
      assert Run(w0, q, ph0) == Run(w1, q, ph1);
      if ph1.Reindexing? {
        var (w2, ph2) := Step(w1, q, ph1);
        assert Run(w1, q, ph1) == Run(w2, q, ph2);
        if ph2.RetryQuerying? {
          var (w3, ph3) := Step(w2, q, ph2);
          assert Run(w2, q, ph2) == Run(w3, q, ph3);
        }
      }
    }
  }
}

=== FILE: scenarios.dfy ===
/** Properties that span several operations or fix a particular backend script:
    restart then repair, a backend that keeps forgetting, errors that are not
    404s, and the analyse workflow's aggregation. */
module Scenarios {
  import Text
  import opened Backend
  import opened Model
  import opened Cache
  import opened Coordinator
  import Analysis
  import Dispatcher

  /** The message an HTTP 404 reply becomes is read as "not indexed". */
  lemma NotFoundSignalsNotIndexed(body: Body)
    ensures Classify(Http(404, body)) == Err(StatusMessage(404))
    ensures SignalsNotIndexed(StatusMessage(404))
  {
  }

  /** A worker restarted with nothing saved has no paper: a query without an explicit
      id fails with the "no paper" message and sends nothing. As everywhere here, the
      start-up load is taken to finish before the first message. */
  lemma FreshStartHasNoPaper(store: Store, link: Link, query: string, topK: Option<int>)
    requires store.currentPaper.None?
    ensures var w := World(LoadSavedState(InitialState, store), store, link);
            RagQuery(w, QueryData(query, None, topK)) == (w, Failure(NoPaperMessage))
  {
  }

  /** Restart then repair: the record was persisted as indexed, the backend has since
      forgotten the paper. The restarted worker re-indexes the persisted paper and the
      single retry answers. The restart is taken to finish loading storage before the
      query is handled; the worker does not wait for that load. */
  lemma RestartThenRepair(paper: Paper, store: Store, query: string, missBody: Body, ack: Payload, answer: Payload)
    requires store.online && store.currentPaper == Some(paper) && store.isIndexed == Some(true)
    requires paper.url != ""
    ensures var w := World(LoadSavedState(InitialState, store), store,
                           Link([Http(404, missBody), Http(200, Parsed(ack)), Http(200, Parsed(answer))], []));
            var r := RagQuery(w, QueryData(query, None, None));
            && r.1 == Success(Returned(answer))
            && r.0.link.calls == [QueryCall(query, paper.url, DefaultTopK), IndexRequest(paper), QueryCall(query, paper.url, DefaultTopK)]
            && r.0.state.currentPaper == Some(paper) && r.0.state.isIndexed
  {
    NotFoundSignalsNotIndexed(missBody);
    var w := World(LoadSavedState(InitialState, store), store,
                   Link([Http(404, missBody), Http(200, Parsed(ack)), Http(200, Parsed(answer))], []));
    assert RepairTriggered(w, QueryData(query, None, None));
  }

  /** A backend that answers every query with 404 but accepts the index request: exactly
      two queries and one index request, then the retry's error, with the flag set. */
  lemma PersistentMissIsBounded(w: World, q: QueryData, firstBody: Body, ackStatus: nat, ack: Payload, retryBody: Body)
    requires ResolvePaperId(q, w.state).Some? && w.state.currentPaper.Some?
    requires IsOkStatus(ackStatus)
    requires w.link.replies == [Http(404, firstBody), Http(ackStatus, Parsed(ack)), Http(404, retryBody)]
    ensures var r := RagQuery(w, q);
            && r.1 == Failure(StatusMessage(404))
            && CountQueries(Sent(w, r.0)) == 2 && CountIndexes(Sent(w, r.0)) == 1
            && r.0.state.isIndexed
  {
    NotFoundSignalsNotIndexed(firstBody);
    assert RepairTriggered(w, q);
    var r := RagQuery(w, q);
    CountsOfThree(Sent(w, r.0)[0], Sent(w, r.0)[1], Sent(w, r.0)[2]);
    assert Sent(w, r.0) == [Sent(w, r.0)[0], Sent(w, r.0)[1], Sent(w, r.0)[2]];
  }

  /** An HTTP error other than 404 is surfaced unchanged and never triggers re-indexing. */
  lemma OtherStatusNeverReindexes(w: World, q: QueryData, status: nat, body: Body)
    requires ResolvePaperId(q, w.state).Some?
    requires !IsOkStatus(status) && status != 404 && status < 1000
    requires |w.link.replies| > 0 && w.link.replies[0] == Http(status, body)
    ensures var r := RagQuery(w, q);
            && r.1 == Failure(StatusMessage(status))
            && CountIndexes(Sent(w, r.0)) == 0 && |Sent(w, r.0)| == 1
            && r.0.state == w.state && r.0.store == w.store
  {
    HttpErrorSignalsNotIndexedIff404(Http(status, body));
  }

  /** The repair does not check that the cached paper is the one asked about: with an
      explicit id for another paper, it re-indexes the cached paper and retries the
      original id. */
  lemma RepairIgnoresRequestedPaper(w: World, q: QueryData, missBody: Body)
    requires q.paperId.Some? && q.paperId.value != ""
    requires w.state.currentPaper.Some? && w.state.currentPaper.value.url != q.paperId.value
    requires Peek(w.link.replies, 1).Ok?
    requires |w.link.replies| > 0 && w.link.replies[0] == Http(404, missBody)
    ensures var r := RagQuery(w, q);
            && |Sent(w, r.0)| == 3
            && Sent(w, r.0)[1].paperId == w.state.currentPaper.value.url
            && Sent(w, r.0)[2].paperId == q.paperId.value
            && Sent(w, r.0)[1].paperId != Sent(w, r.0)[2].paperId
  {
    NotFoundSignalsNotIndexed(missBody);
    assert RepairTriggered(w, q);
  }

  /** Index then query: once the index request succeeds, a query for the paper that the
      backend answers returns that answer with no repair cycle. */
  lemma IndexedPaperQueriesWithoutRepair(w: World, paper: Paper, query: string)
    requires paper.url != ""
    requires Peek(w.link.replies, 0).Ok? && Peek(w.link.replies, 1).Ok?
    ensures var (w1, indexed) := IndexPaper(w, paper);
            var r := RagQuery(w1, QueryData(query, None, None));
            && indexed.Success? && w1.state.isIndexed
            && r.1 == Success(Returned(Peek(w.link.replies, 1).data))
            && Sent(w1, r.0) == [QueryCall(query, paper.url, DefaultTopK)]
  {
  }

  /** Indexing the same paper twice, both accepted: no error, and the record is the one
      a single index leaves. */
  lemma IndexTwiceIsIndexOnce(w: World, paper: Paper)
    requires Peek(w.link.replies, 0).Ok? && Peek(w.link.replies, 1).Ok?
    ensures var (w1, first) := IndexPaper(w, paper);
            var (w2, second) := IndexPaper(w1, paper);
            first.Success? && second.Success? && w2.state == w1.state && w2.store == w1.store
  {
  }

  /** Analysing a page whose key-point request fails still answers with success: the
      failure shows only as missing key points, and the index result is kept. */
  lemma AnalyzeSucceedsDespiteKeyPointFailure(w: World, page: Paper)
    requires Peek(w.link.replies, 0).Ok? && Peek(w.link.replies, 1).Ok? && Peek(w.link.replies, 2).Err?
    ensures var r := Analysis.AnalyzePage(w, page);
            && r.1 == Success(Analyzed(Some(Peek(w.link.replies, 1).data), None, true))
            && r.0.state.currentPaper == Some(page) && r.0.state.isIndexed
  {
  }

  /** Settings written by UPDATE_SETTINGS are the settings a restarted worker restores,
      as long as they still hold every default field (which merges never remove). */
  lemma UpdatedSettingsSurviveRestart(w: World, patch: Settings)
    requires w.store.online
    requires DefaultSettings.Keys <= w.state.settings.Keys
    ensures var r := Dispatcher.HandleMessage(w, Dispatcher.UpdateSettings(patch));
            LoadSavedState(InitialState, r.0.store).settings == r.0.state.settings
  {
  }

  /** The worker starts, restores what storage holds, and handles any history of
      messages; settings then written by UPDATE_SETTINGS are the settings the next
      restart restores. */
  lemma SettingsSurviveRestartAfterAnyHistory(store: Store, link: Link, history: seq<Dispatcher.Message>, patch: Settings)
    requires Dispatcher.HandleAll(World(LoadSavedState(InitialState, store), store, link), history).store.online
    ensures var w := Dispatcher.HandleAll(World(LoadSavedState(InitialState, store), store, link), history);
            var r := Dispatcher.HandleMessage(w, Dispatcher.UpdateSettings(patch));
            LoadSavedState(InitialState, r.0.store).settings == r.0.state.settings
  {
    var start := World(LoadSavedState(InitialState, store), store, link);
    LoadKeepsDefaultFields(InitialState, store);
    Dispatcher.ReachableHasDefaultFields(start, history);
    UpdatedSettingsSurviveRestart(Dispatcher.HandleAll(start, history), patch);
  }

  /** A 2xx reply whose body fails to parse is thrown on with the parser's message; if
      that message contains "404", the coordinator re-indexes just as for an HTTP 404. */
  lemma UnparsableBodyCanTriggerRepair(w: World, q: QueryData, status: nat, parseError: string)
    requires ResolvePaperId(q, w.state).Some? && w.state.currentPaper.Some?
    requires IsOkStatus(status) && Text.Contains(parseError, "404")
    requires |w.link.replies| > 0 && w.link.replies[0] == Http(status, Unparsable(parseError))
    ensures RepairTriggered(w, q)
    ensures CountIndexes(Sent(w, RagQuery(w, q).0)) == 1
  {
  }

  /** The worker starts from readable storage, restores it, and handles any history of
      messages while storage stays writable: a worker restarted at that point restores
      exactly the record in memory, paper, flag and settings alike. */
  lemma RestartRestoresAfterAnyHistory(store: Store, link: Link, history: seq<Dispatcher.Message>)
    requires store.online
    ensures var w := Dispatcher.HandleAll(World(LoadSavedState(InitialState, store), store, link), history);
            w.store.online && LoadSavedState(InitialState, w.store) == w.state
  {
    Dispatcher.HandleAllPreservesMirror(World(LoadSavedState(InitialState, store), store, link), history);
  }

  /** The raw replies left by a request are the script's own: a health check after a
      summary sees the next reply as sent, so a non-2xx status with a parsable body
      still reports the backend as up. */
  lemma HealthCheckSeesRawReplyAfterSummary(w: World, page: Paper, summary: Payload, status: nat, health: Payload)
    requires |w.link.replies| >= 2
    requires w.link.replies[0] == Http(200, Parsed(summary)) && w.link.replies[1] == Http(status, Parsed(health))
    ensures var w1 := Dispatcher.HandleMessage(w, Dispatcher.GetSummary(page)).0;
            Dispatcher.HandleMessage(w1, Dispatcher.CheckBackend).1 == Success(Returned(health))
  {
    var w1 := Dispatcher.HandleMessage(w, Dispatcher.GetSummary(page)).0;
    assert WireAt(w1.link.replies, 0) == WireAt(w.link.replies, 1);
  }
}

=== FILE: text.dfy ===
/** The two pieces of JavaScript string behaviour the coordinator depends on:
    `String.prototype.includes`, and the decimal rendering of a non-negative
    number inside a template literal (`${status}`). */
module Text {

  /** `s.includes(t)`: t occurs in s as a contiguous run; the empty string occurs everywhere. */
  predicate Contains(s: string, t: string)
    decreases |s|
  {
    t <= s || (|s| > 0 && Contains(s[1..], t))
  }

  /** Index-based reading of `includes`: some position of s starts a copy of t. */
  ghost predicate OccursAt(s: string, t: string, i: int)
  {
    0 <= i && i + |t| <= |s| && s[i..i + |t|] == t
  }

  lemma {:induction false} ContainsIffOccurs(s: string, t: string)
    ensures Contains(s, t) <==> exists i :: OccursAt(s, t, i)
    decreases |s|
  {
    if |s| > 0 {
      ContainsIffOccurs(s[1..], t);
      if Contains(s[1..], t) {
        var i :| OccursAt(s[1..], t, i);
        assert s[i + 1..i + 1 + |t|] == s[1..][i..i + |t|];
        assert OccursAt(s, t, i + 1);
      }
      if i :| OccursAt(s, t, i) {
        if i > 0 {
          assert s[1..][i - 1..i - 1 + |t|] == s[i..i + |t|];
          assert OccursAt(s[1..], t, i - 1);
        } else {
          assert t <= s;
        }
      }
      if t <= s {
        assert OccursAt(s, t, 0);
      }
    } else {
      if i :| OccursAt(s, t, i) {
        assert |t| == 0;
        assert t <= s;
      }
      if t <= s {
        assert OccursAt(s, t, 0);
      }
    }
  }

  /** When s is no longer than t, s includes t only by being t. */
  lemma ContainsNoLonger(s: string, t: string)
    requires |s| <= |t|
    ensures Contains(s, t) <==> s == t
  {
  }

  /** A prefix none of whose characters can start t adds no occurrence of t. */
  lemma {:induction false} ContainsAfterPrefix(p: string, s: string, t: string)
    requires |t| > 0
    requires forall i :: 0 <= i < |p| ==> p[i] != t[0]
    ensures Contains(p + s, t) <==> Contains(s, t)
    decreases |p|
  {
    if |p| > 0 {
      assert (p + s)[0] == p[0];
      assert !(t <= p + s);
      assert (p + s)[1..] == p[1..] + s;
      ContainsAfterPrefix(p[1..], s, t);
    } else {
      assert p + s == s;
    }
  }

  predicate IsDigits(s: string)
  {
    forall i :: 0 <= i < |s| ==> '0' <= s[i] <= '9'
  }

  function DigitChar(d: nat): (c: char)
    requires d < 10
    ensures '0' <= c <= '9'
  {
    (48 + d) as char
  }

  function DigitValue(c: char): (d: nat)
    requires '0' <= c <= '9'
    ensures d < 10
  {
    c as int - 48
  }

  /** `${n}` for a non-negative integer: the shortest decimal numeral of n. */
  function Decimal(n: nat): (r: string)
    ensures 1 <= |r|
    ensures IsDigits(r)
    ensures r[0] == '0' <==> n == 0
    decreases n
  {
    if n < 10 then [DigitChar(n)] else Decimal(n / 10) + [DigitChar(n % 10)]
  }

  /** Reads a numeral back, most significant digit first. */
  function ParseDecimal(s: string): (n: nat)
    requires IsDigits(s)
    decreases |s|
  {
    if |s| == 0 then 0 else 10 * ParseDecimal(s[..|s| - 1]) + DigitValue(s[|s| - 1])
  }

  lemma {:induction false} ParseDecimalInvertsDecimal(n: nat)
    ensures ParseDecimal(Decimal(n)) == n
    decreases n
  {
    if n >= 10 {
      var r := Decimal(n);
      assert r[..|r| - 1] == Decimal(n / 10);
      ParseDecimalInvertsDecimal(n / 10);
    }
  }

  /** Two numbers render alike only when they are equal. */
  lemma DecimalInjective(m: nat, n: nat)
    ensures Decimal(m) == Decimal(n) <==> m == n
  {
    if Decimal(m) == Decimal(n) {
      ParseDecimalInvertsDecimal(m);
      ParseDecimalInvertsDecimal(n);
    }
  }

  /** Numbers below 1000 render in at most three characters. */
  lemma DecimalBelowThousand(n: nat)
    requires n < 1000
    ensures |Decimal(n)| <= 3
  {
    if n >= 10 {
      if n >= 100 {
        assert |Decimal(n / 100)| == 1;
      }
      assert |Decimal(n / 10)| <= 2;
    }
  }
}
